=== FILE: README.md ===
# Timer-driven animators of the dontbuytops terminal page

This project models, in Dafny, the small state machines inside the React
components of the single-page site `src/App.tsx`:

- **TypeWriter**: reveals its `text` one character per timeout.
- **StatCard**: becomes `visible` once, when its delay timeout fires.
- **App** load sequence: `loaded` is set on mount, and `showContent` is set
  by an 800 ms timeout. `showContent` gates whether the subtitle TypeWriter
  exists at all.
- **GlitchText**: a recurring interval whose period is drawn once per mount.
  Each tick sets `glitching`, and a 200 ms timeout clears it again.
- **PriceTicker**: a 2000 ms interval maps a random jitter over every quote.
  The ticker track renders the list three times, and each change gets a `+`
  sign and the "positive" class when it is not negative.

Each component is an immutable `State` record with a total transition
function `Step(s, e)`. `Run(s, evs)` folds `Step` over a sequence of events.
The events are `Mount`, `Fire(id)` of a named timer, `PropsChange` and
`Unmount`.

Timers follow these rules:

- Every timer a component arms gets that component's next unused id.
- A cleared timer can still "fire", but that event finds nothing armed.
- Time is not measured in milliseconds. The environment chooses which armed
  timer fires next. Each timer records the delay it was armed with.
- `Math.random()` enters as a value of the subset type `Draw`, a real in
  [0, 1). The ticker receives a whole stream `nat -> Draw` per tick: entry i
  uses draw 2i for its price and draw 2i + 1 for its change, which is the
  order in which the callback evaluates them.
- Prices are `real`, not IEEE doubles.

Files: `timers.dfy` (shared vocabulary), `typewriter.dfy`, `stat_card.dfy`,
`glitch_text.dfy`, `price_ticker.dfy`, `app.dfy`.

Three behaviours of the code are modelled exactly as written:

- StatCard's effect depends on `[delay]`, so a new `delay` clears the pending
  timeout and arms a fresh one (`StatCard.Step`).
- GlitchText's cleanup clears only the interval. A 200 ms reset already in
  flight still fires after unmount. Its state update is dropped because the
  component is gone, so the displayed flag is frozen
  (`GlitchText.ResetOutlivesUnmount`).
- TypeWriter keeps `displayText` and `currentIndex` when `text` changes while
  mounted. It then keeps appending characters of the new text after the old
  prefix (`TypeWriter.StaleTextKept`: "AB" → "A", then text "XY" → "AY").
  The prefix property is therefore proved for runs that keep `text`.

## Model

| member | source | states |
|---|---|---|
| TypeWriter.InitDefault | src/App.tsx:4-6 | A TypeWriter given no `delay` waits 50 ms per character. It starts with an empty display at index 0, which satisfies the invariant and the prefix property. |
| TypeWriter.Step | src/App.tsx:8-16 | Firing the armed timeout appends exactly `text[currentIndex]` and advances the index by one. Every other event leaves the display and index as they were. A props change installs the new `text` and `delay`, and unmount clears the pending timeout. A firing or props change never changes the phase, so a writer with characters left stays mounted and re-armed. A firing of any id other than the armed one, a second mount, and an unmount of a writer that is not mounted change nothing. The display only ever grows. The invariant is preserved: the length of `displayText` equals `currentIndex`; a mounted writer with characters left has exactly one armed timeout, carrying the next character and the current `delay`. The prefix property is preserved unless `text` changes. A disposed writer ignores every event. |
| TypeWriter.Run | src/App.tsx:8-16 | Over any event sequence, the invariant holds, the display and index never shrink, the timer id counter never decreases, and a disposed writer never changes. |
| TypeWriter.RetiredStaysRetired | src/App.tsx:10-14 | A timer id that was handed out and is no longer armed is never armed again, through any later events: ids are never reused. |
| TypeWriter.PrefixPreserved | src/App.tsx:5-13 | While `text` is not changed, every later state shows `text[..currentIndex]` with `currentIndex <= |text|`. |
| TypeWriter.PrefixFromInit | src/App.tsx:4-16 | From a fresh instance, every run that keeps `text` shows a prefix of `text` of length `currentIndex`. |
| TypeWriter.DoneIsTerminal | src/App.tsx:9-15 | Once `currentIndex >= |text|`, no timeout is armed. No later event that keeps `text` arms one or changes the display again. |
| TypeWriter.RevealAfterFires | src/App.tsx:8-16 | Mount followed by k firings of the armed timeout shows exactly `text[..min(k, |text|)]`. After `|text|` firings nothing is armed. |
| TypeWriter.TypingAB | src/App.tsx:8-16 | For "AB", the display goes "", "A", "AB", and is still "AB" after extra firings. |
| TypeWriter.StaleTextKept | src/App.tsx:4-16 | Changing `text` mid-reveal keeps the revealed characters. The display can then stop being a prefix of the new text. |
| TypeWriter.ClearedTimerInert | src/App.tsx:14 | A timeout cleared by unmount or by a dependency change never takes effect: firing its id at any later point changes nothing. |
| StatCard.Step | src/App.tsx:74-80 | `visible` never reverts. It turns true exactly when the armed timeout fires on a mounted card, which also clears that timeout. The invariant is preserved: a mounted hidden card always has one timeout armed, with the current `delay`. A new `delay` on a mounted card installs that delay and re-arms one timeout of it with a fresh id. Unmount clears the pending timeout and keeps `visible`. A firing or props change never changes the phase. A firing of any id other than the armed one, a second mount, and an unmount of a card that is not mounted change nothing. A disposed card ignores every event. |
| StatCard.Run | src/App.tsx:75-80 | Over any event sequence, the invariant holds, `visible` never reverts, and a disposed card never changes. |
| StatCard.HiddenUntilFired | src/App.tsx:75-78 | A hidden card stays hidden through any sequence of events that contains no timer firing. |
| StatCard.RevealOnFire | src/App.tsx:77-79 | Mounting arms one timeout of `delay` ms and leaves the card hidden. Firing that timeout shows the card. |
| StatCard.ClearedTimerInert | src/App.tsx:77-80 | A timeout cleared by unmount or by a new `delay` never takes effect: firing its id at any later point changes nothing. |
| GlitchText.Period | src/App.tsx:28 | The interval period drawn at mount lies in [4000, 6000) ms. |
| GlitchText.Step | src/App.tsx:24-30 | Mount arms one interval whose period comes from the draw. An interval tick sets `glitching`, keeps the interval, and arms one fresh 200 ms reset. A reset firing removes that reset and clears `glitching` while mounted. Unmount clears the interval but keeps the in-flight resets. After unmount, `glitching` never changes. `glitching` changes only on an interval tick or a reset firing, and a firing of any other id changes nothing. A second mount, and an unmount of a component that is not mounted, change nothing. The invariant is preserved: a mounted component that is glitching always has a reset pending. |
| GlitchText.Run | src/App.tsx:24-30 | Over any event sequence, the invariant holds: the period stays in range, ids are distinct, and every glitch has a pending reset. |
| GlitchText.PeriodDrawnOnce | src/App.tsx:24-30 | While the component stays mounted, its interval handle and period never change. The period is not redrawn per cycle. |
| GlitchText.DisposedIsFrozen | src/App.tsx:27-29 | After unmount, no interval returns and the flag never changes. Pending resets can only be used up. |
| GlitchText.OnePulse | src/App.tsx:25-28 | From mount, one tick turns the glitch on with one 200 ms reset armed. Firing that reset turns the glitch off with the interval unchanged. |
| GlitchText.ResetOutlivesUnmount | src/App.tsx:27-29 | A reset armed before unmount is still pending after it. Firing that reset leaves the frozen flag unchanged. |
| PriceTicker.JitterInBand | src/App.tsx:48-52 | A jittered entry keeps its symbol. Its price moves into [0.999p, 1.001p) for positive p, keeping its sign; it stays 0 for p = 0. Its change moves into [c - 0.05, c + 0.05). |
| PriceTicker.Tick | src/App.tsx:48-52 | The new list has the same length and order. Each entry is the jittered successor of the entry at its position, using draws 2i and 2i + 1. |
| PriceTicker.Step | src/App.tsx:46-55 | A firing of the armed interval on a mounted ticker replaces the list by exactly `Tick` of it and keeps the interval. Every other event leaves the list unchanged, and unmount clears the interval. A firing never changes the phase or the interval. A firing of any id other than the interval's, a second mount, and an unmount of a ticker that is not mounted change nothing. Any event keeps the list length and the symbol sequence. Each entry is either unchanged or a one-tick successor. All prices stay positive if they were. The interval is armed with 2000 ms exactly while mounted. A disposed ticker ignores every event. |
| PriceTicker.Run | src/App.tsx:46-55 | Over any event sequence, the length, the symbol order and the positivity of prices are preserved, and a disposed ticker never changes. |
| PriceTicker.SeedKeepsShape | src/App.tsx:40-55 | The seeded ticker always lists BTC, ETH and SOL in that order, with positive prices. |
| PriceTicker.OneTickScenario | src/App.tsx:46-53 | One BTC quote at 100 with change 0: after one tick, the price lies in [99.9, 100.1) and the change in [-0.05, 0.05). |
| PriceTicker.Track | src/App.tsx:60 | The track has 3·n entries, and entry i is quote i mod n. |
| PriceTicker.ChangeLabel | src/App.tsx:64-65 | The `+` prefix and the "positive" class are chosen together, exactly when change >= 0. The label then carries exactly one sign glyph (`+` or the `-` that `toFixed` writes), and it agrees with the class. |
| App.Step | src/App.tsx:102-110 | Mount sets `loaded` and arms one 800 ms timeout. `showContent` turns true exactly when that timeout fires on a mounted App, which also clears it and creates the TypeWriter, mounted, for the tagline. Unmount clears the pending timeout and keeps both flags. A subtitle firing is exactly the TypeWriter's own `Fire` step on the subtitle. Under the invariant the subtitle, once it exists, keeps existing and its text only grows. A firing of any id other than the armed 800 ms one, a second mount, and an unmount of an App that is not mounted change nothing. Neither flag ever reverts. The invariant is preserved: `showContent` implies `loaded`; the TypeWriter exists exactly when `showContent` holds, and it always shows a prefix of the tagline. A disposed App ignores every event. |
| App.Run | src/App.tsx:103-152 | Over any event sequence, the invariant holds, neither flag reverts, and a disposed App never changes. A subtitle that exists keeps existing, and its text only grows. |
| App.MountedWriter | src/App.tsx:147-152 | The gated TypeWriter starts mounted, with the tagline and a 40 ms delay, and shows nothing yet. |
| App.Render | src/App.tsx:147-152 | The hero is entered while `loaded` holds, and the sections are revealed while `showContent` holds. In every state satisfying the invariant, revealed sections imply an entered hero. The subtitle exists exactly when the sections are revealed, and it is a prefix of the tagline. |
| App.TaglineTyped | src/App.tsx:106-152 | Mount, then the 800 ms timeout, then k TypeWriter firings: the sections are revealed and the subtitle reads the first min(k, 51) characters of the tagline. |

## Left out

- JSX markup, CSS class strings, static copy, the SVG icon and `SocialLink`
  (src/App.tsx:90-100, 112-227) are presentation with no state. The class
  choices that depend on state are modelled as booleans: `App.View` and
  `PriceTicker.Label`.
- Digit formatting by `toLocaleString` and `toFixed` (src/App.tsx:63, 65) is
  library formatting. Only the sign that `toFixed` writes is modelled.
- Wall-clock time and the React scheduler are not modelled. A timer firing is
  a discrete event, and the environment may fire armed timers in any order.
  Elapsed-time statements ("visible at t >= delay") become statements about
  which timer firing comes first. React's batching of the two state updates
  in the TypeWriter callback and StrictMode's double effects are not modelled.
- `Math.random` is not modelled. Its results are parameters of type `Draw`
  in [0, 1).
- IEEE-754 rounding of the price drift is not modelled; prices are `real`.
- UTF-16 surrogate pairs are not modelled. A character outside the Basic
  Multilingual Plane is one `char` here, but two code units in JavaScript, so
  the TypeWriter there reveals it in two firings, half a pair at a time. The
  only text the page types is the ASCII tagline, where the two agree.
- The App composes only the TypeWriter it gates. PriceTicker, GlitchText and
  the four StatCards (delays 1200, 1400, 1600 and 1800 ms) are independent
  instances of their own machines, with their own events.
- Timer ids are numbered per component rather than by the browser's single
  global counter. Only their freshness matters.

=== FILE: app.dfy ===
/**
  The App component's load sequence and the TypeWriter it gates.

  On mount the effect sets `loaded` at once and arms an 800 ms timeout that
  sets `showContent`; the cleanup clears that timeout. The hero section is
  marked entered while `loaded` holds, the other sections are revealed while
  `showContent` holds, and the subtitle TypeWriter exists only while
  `showContent` holds, so it mounts, and starts typing, when the timeout fires.

  Timer ids of the App and of its TypeWriter are numbered separately; the
  event says which component's timer fires.
 */
module App {
  import opened Timers
  import TypeWriter

  /** How long after mount the content is shown, in milliseconds. */
  const ShowDelay: real := 800.0

  /** The subtitle the TypeWriter types, and its per-character delay. */
  const Tagline: string := "Crypto trader. Degen analyst. Contrarian by nature."
  const TaglineDelay: real := 40.0

  datatype State = State(
    loaded: bool,
    showContent: bool,
    phase: Phase,
    pending: Option<Timer>,
    nextId: nat,
    writer: Option<TypeWriter.State>)

  datatype Event =
    | Mount
    | Fire(id: nat)
    | WriterFire(id: nat)
    | Unmount

  function Init(): State {
    State(false, false, Unmounted, None, 0, None)
  }

  predicate Armed(s: State, id: nat) {
    s.pending.Some? && s.pending.value.id == id
  }

  /** What the sequence decides about the page. */
  datatype View = View(heroEntered: bool, sectionsRevealed: bool, subtitle: Option<string>)

  ghost predicate WriterOk(s: State) {
    s.writer.Some? ==>
      var w := s.writer.value;
      && TypeWriter.Inv(w)
      && TypeWriter.Prefix(w)
      && w.text == Tagline
      && w.delay == TaglineDelay
      && w.phase != Unmounted
      && (w.phase == Mounted <==> s.phase == Mounted)
  }

  ghost predicate Inv(s: State) {
    && (s.phase == Unmounted ==> !s.loaded && s.pending.None? && s.writer.None?)
    && (s.phase != Unmounted ==> s.loaded)
    && (s.showContent ==> s.loaded)
    && (s.showContent <==> s.writer.Some?)
    && (s.pending.Some? ==>
          && s.phase == Mounted
          && !s.showContent
          && s.pending.value.ms == ShowDelay
          && s.pending.value.id < s.nextId)
    && (s.phase == Mounted && !s.showContent ==> s.pending.Some?)
    && WriterOk(s)
  }

  /** The TypeWriter as it stands right after it mounts. */
  function MountedWriter(): (w: TypeWriter.State)
    ensures TypeWriter.Inv(w) && TypeWriter.Prefix(w)
    ensures w.text == Tagline && w.delay == TaglineDelay && w.phase == Mounted
    ensures w.displayText == ""
  {
    TypeWriter.Step(TypeWriter.Init(Tagline, TaglineDelay), TypeWriter.Mount)
  }

  function Step(s: State, e: Event): (r: State)
    ensures Inv(s) ==> Inv(r)
    ensures s.loaded ==> r.loaded
    ensures s.showContent ==> r.showContent
    ensures !s.showContent && r.showContent ==> e.Fire? && Armed(s, e.id) && s.phase == Mounted
    ensures Inv(s) && s.phase == Unmounted && e.Mount? ==>
              r.loaded && !r.showContent && r.pending == Some(Timer(s.nextId, ShowDelay))
    ensures Inv(s) && s.phase == Disposed ==> r == s
    ensures s.phase == Mounted && e.Fire? && Armed(s, e.id) ==>
              r.showContent && r.pending.None? && r.writer == Some(MountedWriter())
    ensures s.phase == Mounted && e.Unmount? ==>
              r.phase == Disposed && r.pending.None? && r.loaded == s.loaded && r.showContent == s.showContent
    ensures e.WriterFire? && s.writer.Some? ==>
              r.writer == Some(TypeWriter.Step(s.writer.value, TypeWriter.Fire(e.id)))
    ensures Inv(s) && s.writer.Some? ==>
              r.writer.Some? && s.writer.value.displayText <= r.writer.value.displayText
    ensures e.Fire? && !(s.phase == Mounted && Armed(s, e.id)) ==> r == s
    ensures e.Mount? && s.phase != Unmounted ==> r == s
    ensures e.Unmount? && s.phase != Mounted ==> r == s
  {
    match e
    case Mount =>
      if s.phase == Unmounted then
        s.(loaded := true, phase := Mounted,
           pending := Some(Timer(s.nextId, ShowDelay)), nextId := s.nextId + 1)
      else s
    case Fire(id) =>
      if s.phase == Mounted && Armed(s, id) then
        s.(showContent := true, pending := None, writer := Some(MountedWriter()))
      else s
    case WriterFire(id) =>
      if s.writer.Some? then
        var w := s.writer.value;
        s.(writer := Some(TypeWriter.Step(w, TypeWriter.Fire(id))))
      else s
    case Unmount =>
      if s.phase == Mounted then
        s.(phase := Disposed, pending := None,
           writer := if s.writer.Some? then Some(TypeWriter.Step(s.writer.value, TypeWriter.Unmount)) else None)
      else s
  }

  function Run(s: State, evs: seq<Event>): (r: State)
    ensures Inv(s) ==> Inv(r)
    ensures s.loaded ==> r.loaded
    ensures s.showContent ==> r.showContent
    ensures Inv(s) && s.phase == Disposed ==> r == s
    ensures Inv(s) && s.writer.Some? ==>
              r.writer.Some? && s.writer.value.displayText <= r.writer.value.displayText
    decreases |evs|
  {
    if evs == [] then s else Run(Step(s, evs[0]), evs[1..])
  }

  /**
    The page as the sequence shows it. In every reachable state revealed
    sections imply an entered hero, the subtitle exists exactly when the
    sections are revealed, and it shows a prefix of the tagline.
   */
  function Render(s: State): (v: View)
    ensures v.heroEntered == s.loaded && v.sectionsRevealed == s.showContent
    ensures Inv(s) ==> (v.sectionsRevealed ==> v.heroEntered)
    ensures Inv(s) ==> (v.subtitle.Some? <==> v.sectionsRevealed)
    ensures Inv(s) && v.subtitle.Some? ==> v.subtitle.value <= Tagline
  {
    View(s.loaded, s.showContent,
         if s.writer.Some? then Some(s.writer.value.displayText) else None)
  }

  /** The App's `WriterFire(j)` events for j in from .. from + k - 1. */
  function WriterFires(from: nat, k: nat): (evs: seq<Event>)
    ensures |evs| == k
    ensures forall i :: 0 <= i < k ==> evs[i] == WriterFire(from + i)
    decreases k
  {
    if k == 0 then [] else [WriterFire(from)] + WriterFires(from + 1, k - 1)
  }

  lemma {:induction false} WriterRun(s: State, m: nat, k: nat)
    requires s.writer.Some?
    ensures Run(s, WriterFires(m, k)).writer ==
            Some(TypeWriter.Run(s.writer.value, TypeWriter.Fires(m, k)))
    ensures Run(s, WriterFires(m, k)).showContent == s.showContent
    decreases k
  {
    if k > 0 {
      var evs := WriterFires(m, k);
      var tw := TypeWriter.Fires(m, k);
      assert evs[0] == WriterFire(m) && evs[1..] == WriterFires(m + 1, k - 1);
      assert tw[0] == TypeWriter.Fire(m) && tw[1..] == TypeWriter.Fires(m + 1, k - 1);
      WriterRun(Step(s, evs[0]), m + 1, k - 1);
    }
  }

  /**
    Mount, the 800 ms timeout, and then k firings of the TypeWriter's
    timeout: the sections are revealed and the subtitle shows the first
    min(k, |Tagline|) characters of the tagline.
   */
  lemma TaglineTyped(k: nat)
    ensures var r := Run(Init(), [Mount, Fire(0)] + WriterFires(0, k));
      && r.loaded && r.showContent
      && Render(r).subtitle == Some(Tagline[..Min(k, |Tagline|)])
  {
    var s1 := Step(Init(), Mount);
    var s2 := Step(s1, Fire(0));
    var evs := [Mount, Fire(0)] + WriterFires(0, k);
    assert evs[0] == Mount && evs[1..] == [Fire(0)] + WriterFires(0, k);
    assert evs[1..][0] == Fire(0) && evs[1..][1..] == WriterFires(0, k);
    WriterRun(s2, 0, k);
    TypeWriter.RevealAfterFires(Tagline, TaglineDelay, k);
    var tevs := [TypeWriter.Mount] + TypeWriter.Fires(0, k);
    assert tevs[0] == TypeWriter.Mount && tevs[1..] == TypeWriter.Fires(0, k);
  }
}

=== FILE: glitch_text.dfy ===
/**
  The GlitchText component: an on/off pulse driven by one interval.

  On mount its effect draws one Math.random() value and arms an interval of
  4000 + r * 2000 ms. Each interval tick sets `glitching` and arms a 200 ms
  timeout that clears it again. The cleanup clears the interval only: reset
  timeouts already in flight at unmount still fire, and their state update
  lands on a component that is gone, so it has no effect.
 */
module GlitchText {
  import opened Timers

  /** The interval period is MinPeriod + r * PeriodSpread for a draw r. */
  const MinPeriod: real := 4000.0
  const PeriodSpread: real := 2000.0

  /** How long one glitch lasts, in milliseconds. */
  const ResetMs: real := 200.0

  datatype State = State(
    glitching: bool,
    phase: Phase,
    interval: Option<Timer>,
    resets: set<Timer>,
    nextId: nat)

  datatype Event =
    | Mount(r: Draw)
    | Fire(id: nat)
    | Unmount

  function Init(): State {
    State(false, Unmounted, None, {}, 0)
  }

  /** The interval period chosen at mount from the draw `r`. */
  function Period(r: Draw): (ms: real)
    ensures MinPeriod <= ms < MinPeriod + PeriodSpread
  {
    MinPeriod + r * PeriodSpread
  }

  /** The 200 ms timeout an interval tick arms to end the glitch. */
  function Reset(id: nat): Timer {
    Timer(id, ResetMs)
  }

  predicate IsInterval(s: State, id: nat) {
    s.interval.Some? && s.interval.value.id == id
  }

  ghost predicate Inv(s: State) {
    && (s.interval.Some? <==> s.phase == Mounted)
    && (s.interval.Some? ==>
          && MinPeriod <= s.interval.value.ms < MinPeriod + PeriodSpread
          && s.interval.value.id < s.nextId
          && (forall t :: t in s.resets ==> t.id != s.interval.value.id))
    && (forall t :: t in s.resets ==> t.id < s.nextId && t.ms == ResetMs)
    && (s.phase == Unmounted ==> !s.glitching && s.resets == {})
    && (s.phase == Mounted && s.glitching ==> s.resets != {})
  }

  function Step(s: State, e: Event): (r: State)
    ensures Inv(s) ==> Inv(r)
    ensures Inv(s) && s.phase == Unmounted && e.Mount? ==>
              r.interval == Some(Timer(s.nextId, Period(e.r))) && !r.glitching
    ensures Inv(s) && e.Fire? && IsInterval(s, e.id) ==>
              && r.glitching
              && r.interval == s.interval
              && Reset(s.nextId) !in s.resets
              && r.resets == s.resets + {Reset(s.nextId)}
    ensures Inv(s) && e.Fire? && Reset(e.id) in s.resets ==>
              && r.resets == s.resets - {Reset(e.id)}
              && r.glitching == (s.glitching && s.phase != Mounted)
    ensures s.phase == Mounted && e.Unmount? ==>
              r.phase == Disposed && r.interval.None? && r.resets == s.resets
    ensures s.phase == Disposed ==>
              r.phase == Disposed && r.glitching == s.glitching && r.resets <= s.resets
              && r.interval == s.interval
    ensures s.interval.Some? && s.phase == Mounted && !e.Unmount? ==> r.interval == s.interval
    ensures r.glitching != s.glitching ==> e.Fire? && (IsInterval(s, e.id) || Reset(e.id) in s.resets)
    ensures e.Fire? && !IsInterval(s, e.id) && Reset(e.id) !in s.resets ==> r == s
    ensures e.Mount? && s.phase != Unmounted ==> r == s
    ensures e.Unmount? && s.phase != Mounted ==> r == s
  {
    match e
    case Mount(draw) =>
      if s.phase == Unmounted then
        s.(phase := Mounted, interval := Some(Timer(s.nextId, Period(draw))), nextId := s.nextId + 1)
      else s
    case Fire(id) =>
      if s.phase == Mounted && IsInterval(s, id) then
        s.(glitching := true, resets := s.resets + {Reset(s.nextId)}, nextId := s.nextId + 1)
      else if Reset(id) in s.resets then
        s.(resets := s.resets - {Reset(id)}, glitching := if s.phase == Mounted then false else s.glitching)
      else s
    case Unmount =>
      if s.phase == Mounted then s.(phase := Disposed, interval := None) else s
  }

  function Run(s: State, evs: seq<Event>): (r: State)
    ensures Inv(s) ==> Inv(r)
    decreases |evs|
  {
    if evs == [] then s else Run(Step(s, evs[0]), evs[1..])
  }

  /**
    The period is drawn once: while the component stays mounted its interval
    handle, and so its period, never changes.
   */
  lemma {:induction false} PeriodDrawnOnce(s: State, evs: seq<Event>)
    requires Inv(s) && s.phase == Mounted
    ensures Run(s, evs).phase == Mounted ==> Run(s, evs).interval == s.interval
    decreases |evs|
  {
    if evs != [] {
      var s' := Step(s, evs[0]);
      if s'.phase == Mounted {
        PeriodDrawnOnce(s', evs[1..]);
      } else {
        DisposedIsFrozen(s', evs[1..]);
      }
    }
  }

  /**
    After unmount the flag is frozen: reset timeouts still in flight fire and
    are used up, but the value shown never changes and no interval returns.
   */
  lemma {:induction false} DisposedIsFrozen(s: State, evs: seq<Event>)
    requires s.phase == Disposed
    ensures Run(s, evs).phase == Disposed
    ensures Run(s, evs).glitching == s.glitching
    ensures Run(s, evs).interval == s.interval
    ensures Run(s, evs).resets <= s.resets
    decreases |evs|
  {
    if evs != [] {
      DisposedIsFrozen(Step(s, evs[0]), evs[1..]);
    }
  }

  /**
    One full pulse from mount: the interval tick turns the glitch on and arms
    a 200 ms reset, and that reset's firing turns it off again.
   */
  lemma OnePulse(r: Draw)
    ensures var s := Run(Init(), [Mount(r), Fire(0)]);
      s.glitching && s.resets == {Reset(1)} && s.interval == Some(Timer(0, Period(r)))
    ensures var s := Run(Init(), [Mount(r), Fire(0), Fire(1)]);
      !s.glitching && s.resets == {} && s.interval == Some(Timer(0, Period(r)))
  {
    var s1 := Step(Init(), Mount(r));
    var s2 := Step(s1, Fire(0));
    var s3 := Step(s2, Fire(1));
    var evs := [Mount(r), Fire(0), Fire(1)];
    assert evs[1..] == [Fire(0), Fire(1)] && evs[2..] == [Fire(1)];
    assert Run(s3, []) == s3 && Run(s2, [Fire(1)]) == s3;
    assert Run(s2, []) == s2 && Run(s1, [Fire(0)]) == s2;
    assert Run(s1, [Fire(0), Fire(1)]) == s3;
  }

  /**
    The quirk of the cleanup: a reset armed before unmount is still pending
    after it, and its firing leaves the (frozen) flag as it was.
   */
  lemma ResetOutlivesUnmount(r: Draw)
    ensures var s := Run(Init(), [Mount(r), Fire(0), Unmount]);
      s.phase == Disposed && s.interval.None? && s.resets == {Reset(1)} && s.glitching
    ensures var s := Run(Init(), [Mount(r), Fire(0), Unmount, Fire(1)]);
      s.resets == {} && s.glitching
  {
    var s1 := Step(Init(), Mount(r));
    var s2 := Step(s1, Fire(0));
    var s3 := Step(s2, Unmount);
    var s4 := Step(s3, Fire(1));
    assert Run(s4, []) == s4 && Run(s3, [Fire(1)]) == s4 && Run(s3, []) == s3;
    assert Run(s2, [Unmount, Fire(1)]) == s4 && Run(s2, [Unmount]) == s3;
    assert Run(s1, [Fire(0), Unmount, Fire(1)]) == s4 && Run(s1, [Fire(0), Unmount]) == s3;
  }
}

=== FILE: price_ticker.dfy ===
/**
  The PriceTicker component: a list of simulated quotes jittered on a timer.

  On mount its effect arms a 2000 ms interval; each tick replaces the list by
  mapping a jitter over every entry, and unmounting clears the interval. The
  ticker track renders the list three times in a row, and each entry's change
  gets a `+` prefix and the "positive" class exactly when it is not negative.

  Prices are reals, not IEEE doubles. Math.random() is a stream of draws in
  [0, 1) supplied with each tick: entry i consumes draw 2i for its price and
  draw 2i + 1 for its change, the order in which the callback evaluates them.
 */
module PriceTicker {
  import opened Timers

  /** The interval between ticks, in milliseconds. */
  const TickMs: real := 2000.0

  /** A price moves by (r - 0.5) * PriceJitter of itself: at most 0.1%. */
  const PriceJitter: real := 0.002

  /** A change moves by (r - 0.5) * ChangeJitter: at most 0.05 either way. */
  const ChangeJitter: real := 0.1

  datatype Entry = Entry(symbol: string, price: real, change: real)

  /** The list the ticker starts from. */
  const Seed: seq<Entry> := [
    Entry("BTC", 67234.12, 2.34),
    Entry("ETH", 3521.87, -1.23),
    Entry("SOL", 178.45, 5.67)
  ]

  datatype State = State(
    prices: seq<Entry>,
    phase: Phase,
    interval: Option<Timer>,
    nextId: nat)

  datatype Event =
    | Mount
    | Fire(id: nat, random: nat -> Draw)
    | Unmount

  function Init(prices: seq<Entry>): State {
    State(prices, Unmounted, None, 0)
  }

  /** The new price lies within 0.1% of the old one, on the same side of zero. */
  ghost predicate PriceInBand(p: real, q: real) {
    && (p > 0.0 ==> 0.999 * p <= q < 1.001 * p)
    && (p == 0.0 ==> q == 0.0)
    && (p < 0.0 ==> 1.001 * p < q <= 0.999 * p)
  }

  /** The new change lies in [c - 0.05, c + 0.05). */
  ghost predicate ChangeInBand(c: real, d: real) {
    c - 0.05 <= d < c + 0.05
  }

  /** `q` is a one-tick successor of `p`: same symbol, both numbers within their bands. */
  ghost predicate Successor(p: Entry, q: Entry) {
    q.symbol == p.symbol && PriceInBand(p.price, q.price) && ChangeInBand(p.change, q.change)
  }

  lemma ScaleBounds(p: real, f: real)
    requires 0.999 <= f < 1.001
    ensures PriceInBand(p, p * f)
  {
    if p > 0.0 {
      assert p * f - 0.999 * p == p * (f - 0.999);
      assert 1.001 * p - p * f == p * (1.001 - f);
    } else if p < 0.0 {
      assert p * f - 0.999 * p == p * (f - 0.999);
      assert 1.001 * p - p * f == p * (1.001 - f);
    }
  }

  /** One entry's update from the two draws `r1` (price) and `r2` (change). */
  function Jitter(p: Entry, r1: Draw, r2: Draw): Entry {
    Entry(p.symbol, p.price * (1.0 + (r1 - 0.5) * PriceJitter), p.change + (r2 - 0.5) * ChangeJitter)
  }

  /**
    A jittered entry keeps its symbol, its price moves by less than 0.1% and
    stays on the same side of zero, and its change moves by less than 0.05.
   */
  lemma JitterInBand(p: Entry, r1: Draw, r2: Draw)
    ensures Successor(p, Jitter(p, r1, r2))
  {
    ScaleBounds(p.price, 1.0 + (r1 - 0.5) * PriceJitter);
  }

  /** The mapped list, taking draws from `random` starting at index `k`. */
  function TickFrom(prices: seq<Entry>, random: nat -> Draw, k: nat): (r: seq<Entry>)
    ensures |r| == |prices|
    ensures forall i :: 0 <= i < |r| ==>
              r[i] == Jitter(prices[i], random(k + 2 * i), random(k + 2 * i + 1))
    decreases |prices|
  {
    if prices == [] then []
    else
      var rest := TickFrom(prices[1..], random, k + 2);
      var r := [Jitter(prices[0], random(k), random(k + 1))] + rest;
      forall i | 1 <= i < |r|
        ensures r[i] == Jitter(prices[i], random(k + 2 * i), random(k + 2 * i + 1))
      {
        assert r[i] == rest[i - 1] && prices[i] == prices[1..][i - 1];
        assert k + 2 + 2 * (i - 1) == k + 2 * i;
      }
      r
  }

  /**
    One tick's list: same length, and each entry the jittered successor of the
    entry at the same position, drawing its price from draw 2i and its change
    from draw 2i + 1.
   */
  function Tick(prices: seq<Entry>, random: nat -> Draw): (r: seq<Entry>)
    ensures |r| == |prices|
    ensures forall i :: 0 <= i < |r| ==> Successor(prices[i], r[i])
    ensures forall i :: 0 <= i < |r| ==>
              r[i] == Jitter(prices[i], random(2 * i), random(2 * i + 1))
  {
    var r := TickFrom(prices, random, 0);
    forall i | 0 <= i < |r|
      ensures Successor(prices[i], r[i])
    {
      JitterInBand(prices[i], random(2 * i), random(2 * i + 1));
    }
    r
  }

  predicate IsInterval(s: State, id: nat) {
    s.interval.Some? && s.interval.value.id == id
  }

  function Symbols(prices: seq<Entry>): (syms: seq<string>)
    ensures |syms| == |prices|
    ensures forall i :: 0 <= i < |prices| ==> syms[i] == prices[i].symbol
  {
    seq(|prices|, i requires 0 <= i < |prices| => prices[i].symbol)
  }

  ghost predicate AllPositive(prices: seq<Entry>) {
    forall i :: 0 <= i < |prices| ==> prices[i].price > 0.0
  }

  ghost predicate Inv(s: State) {
    && (s.interval.Some? <==> s.phase == Mounted)
    && (s.interval.Some? ==> s.interval.value.ms == TickMs && s.interval.value.id < s.nextId)
  }

  function Step(s: State, e: Event): (r: State)
    ensures Inv(s) ==> Inv(r)
    ensures |r.prices| == |s.prices|
    ensures Symbols(r.prices) == Symbols(s.prices)
    ensures forall i :: 0 <= i < |r.prices| ==>
              r.prices[i] == s.prices[i] || Successor(s.prices[i], r.prices[i])
    ensures AllPositive(s.prices) ==> AllPositive(r.prices)
    ensures s.phase == Disposed ==> r == s
    ensures s.phase == Mounted && e.Fire? && IsInterval(s, e.id) ==>
              r.prices == Tick(s.prices, e.random) && r.interval == s.interval
    ensures !(s.phase == Mounted && e.Fire? && IsInterval(s, e.id)) ==> r.prices == s.prices
    ensures s.phase == Mounted && e.Unmount? ==> r.phase == Disposed && r.interval.None?
    ensures e.Fire? ==> r.phase == s.phase && r.interval == s.interval
    ensures e.Fire? && !(s.phase == Mounted && IsInterval(s, e.id)) ==> r == s
    ensures e.Mount? && s.phase != Unmounted ==> r == s
    ensures e.Unmount? && s.phase != Mounted ==> r == s
  {
    match e
    case Mount =>
      if s.phase == Unmounted then
        s.(phase := Mounted, interval := Some(Timer(s.nextId, TickMs)), nextId := s.nextId + 1)
      else s
    case Fire(id, random) =>
      if s.phase == Mounted && IsInterval(s, id) then s.(prices := Tick(s.prices, random)) else s
    case Unmount =>
      if s.phase == Mounted then s.(phase := Disposed, interval := None) else s
  }

  function Run(s: State, evs: seq<Event>): (r: State)
    ensures Inv(s) ==> Inv(r)
    ensures |r.prices| == |s.prices|
    ensures Symbols(r.prices) == Symbols(s.prices)
    ensures AllPositive(s.prices) ==> AllPositive(r.prices)
    ensures s.phase == Disposed ==> r == s
    decreases |evs|
  {
    if evs == [] then s else Run(Step(s, evs[0]), evs[1..])
  }

  /** The seeded ticker keeps three positive quotes, BTC, ETH and SOL in that order, forever. */
  lemma SeedKeepsShape(evs: seq<Event>)
    ensures var r := Run(Init(Seed), evs);
      Symbols(r.prices) == ["BTC", "ETH", "SOL"] && AllPositive(r.prices)
  {
  }

  /** A single BTC quote at 100.00 with change 0.00, after one tick. */
  lemma OneTickScenario(random: nat -> Draw)
    ensures var r := Run(Init([Entry("BTC", 100.0, 0.0)]), [Mount, Fire(0, random)]);
      && |r.prices| == 1
      && r.prices[0].symbol == "BTC"
      && 99.9 <= r.prices[0].price < 100.1
      && -0.05 <= r.prices[0].change < 0.05
  {
    var s0 := Init([Entry("BTC", 100.0, 0.0)]);
    var s1 := Step(s0, Mount);
    var s2 := Step(s1, Fire(0, random));
    assert Run(s2, []) == s2;
    assert Run(s1, [Fire(0, random)]) == s2;
    assert s2.prices == Tick(s0.prices, random);
  }

  /** The ticker track: the list rendered three times in a row. */
  function Track(prices: seq<Entry>): (r: seq<Entry>)
    ensures |r| == 3 * |prices|
    ensures forall i :: 0 <= i < |r| ==> r[i] == prices[i % |prices|]
  {
    var r := prices + prices + prices;
    forall i | 0 <= i < |r|
      ensures r[i] == prices[i % |prices|]
    {
      var q := if i < |prices| then 0 else if i < 2 * |prices| then 1 else 2;
      ModShift(i, |prices|, q);
    }
    r
  }

  lemma ModShift(i: int, n: int, q: int)
    requires n > 0 && q >= 0 && q * n <= i < q * n + n
    ensures i % n == i - q * n
  {
    var d := i / n;
    assert i == d * n + i % n && 0 <= i % n < n;
    if d < q {
      MulMono(d, q - 1, n);
      assert false;
    } else if d > q {
      MulMono(q + 1, d, n);
      assert false;
    }
  }

  lemma MulMono(a: int, b: int, n: int)
    requires a <= b && n > 0
    ensures a * n <= b * n
  {
    assert b * n - a * n == (b - a) * n;
  }

  /** How one change value is labelled. */
  datatype Label = Label(prefix: string, positive: bool)

  /** The sign `toFixed` writes for a value: '-' before a negative one, nothing otherwise. */
  function FixedSign(change: real): string {
    if change < 0.0 then "-" else ""
  }

  /**
    The `+` prefix and the "positive" class are chosen together, exactly when
    the change is not negative, and the rendered text then carries exactly one
    sign glyph, which agrees with the class.
   */
  function ChangeLabel(change: real): (l: Label)
    ensures l.positive <==> change >= 0.0
    ensures l.prefix == "+" <==> l.positive
    ensures |l.prefix + FixedSign(change)| == 1
    ensures (l.prefix + FixedSign(change))[0] == (if l.positive then '+' else '-')
  {
    if change >= 0.0 then Label("+", true) else Label("", false)
  }
}

=== FILE: stat_card.dfy ===
/**
  The StatCard component: a single-shot reveal.

  On mount its effect arms a timeout of `delay` ms whose callback sets
  `visible`. The effect depends on `delay` alone, so a new `delay` clears the
  pending timeout and arms a fresh one; unmounting clears it.
 */
module StatCard {
  import opened Timers

  datatype State = State(
    delay: real,
    visible: bool,
    phase: Phase,
    pending: Option<Timer>,
    nextId: nat)

  datatype Event =
    | Mount
    | Fire(id: nat)
    | PropsChange(delay: real)
    | Unmount

  function Init(delay: real): State {
    State(delay, false, Unmounted, None, 0)
  }

  predicate Armed(s: State, id: nat) {
    s.pending.Some? && s.pending.value.id == id
  }

  ghost predicate Inv(s: State) {
    && (s.phase == Unmounted ==> !s.visible && s.pending.None?)
    && (s.pending.Some? ==>
          && s.phase == Mounted
          && s.pending.value.ms == s.delay
          && s.pending.value.id < s.nextId)
    && (s.phase == Mounted && !s.visible ==> s.pending.Some?)
  }

  /** The effect's cleanup (clear the pending timeout) followed by its body. */
  function Effect(s: State): State {
    s.(pending := Some(Timer(s.nextId, s.delay)), nextId := s.nextId + 1)
  }

  function Step(s: State, e: Event): (r: State)
    ensures Inv(s) ==> Inv(r)
    ensures s.visible ==> r.visible
    ensures !s.visible && r.visible ==> e.Fire? && Armed(s, e.id) && s.phase == Mounted
    ensures s.nextId <= r.nextId
    ensures r.pending.Some? ==> r.pending == s.pending || r.pending.value.id == s.nextId
    ensures s.phase == Disposed ==> r == s
    ensures s.phase == Mounted && e.Fire? && Armed(s, e.id) ==> r.visible && r.pending.None?
    ensures s.phase == Mounted && e.PropsChange? && e.delay != s.delay ==>
              r.delay == e.delay && r.pending == Some(Timer(s.nextId, e.delay))
    ensures s.phase == Mounted && e.Unmount? ==>
              r.phase == Disposed && r.pending.None? && r.visible == s.visible
    ensures e.Fire? || e.PropsChange? ==> r.phase == s.phase
    ensures e.Fire? && !(s.phase == Mounted && Armed(s, e.id)) ==> r == s
    ensures e.Mount? && s.phase != Unmounted ==> r == s
    ensures e.Unmount? && s.phase != Mounted ==> r == s
  {
    match e
    case Mount =>
      if s.phase == Unmounted then Effect(s.(phase := Mounted)) else s
    case Fire(id) =>
      if s.phase == Mounted && Armed(s, id) then s.(visible := true, pending := None) else s
    case PropsChange(delay) =>
      if s.phase == Disposed || delay == s.delay then s
      else if s.phase == Unmounted then s.(delay := delay)
      else Effect(s.(delay := delay))
    case Unmount =>
      if s.phase == Mounted then s.(phase := Disposed, pending := None) else s
  }

  function Run(s: State, evs: seq<Event>): (r: State)
    ensures Inv(s) ==> Inv(r)
    ensures s.visible ==> r.visible
    ensures s.nextId <= r.nextId
    ensures s.phase == Disposed ==> r == s
    decreases |evs|
  {
    if evs == [] then s else Run(Step(s, evs[0]), evs[1..])
  }

  /** No timer firing, no reveal: the card stays hidden through any other events. */
  lemma {:induction false} HiddenUntilFired(s: State, evs: seq<Event>)
    requires !s.visible
    requires forall i :: 0 <= i < |evs| ==> !evs[i].Fire?
    ensures !Run(s, evs).visible
    decreases |evs|
  {
    if evs != [] {
      HiddenUntilFired(Step(s, evs[0]), evs[1..]);
    }
  }

  /** Mounting arms one timeout of `delay` ms; its firing shows the card. */
  lemma RevealOnFire(delay: real)
    ensures var m := Run(Init(delay), [Mount]);
      !m.visible && m.pending == Some(Timer(0, delay))
    ensures Run(Init(delay), [Mount, Fire(0)]).visible
  {
  }

  /** A timer id that was handed out and is not the one armed. */
  ghost predicate Retired(s: State, id: nat) {
    id < s.nextId && !Armed(s, id)
  }

  lemma {:induction false} RetiredStaysRetired(s: State, id: nat, evs: seq<Event>)
    requires Retired(s, id)
    ensures Retired(Run(s, evs), id)
    decreases |evs|
  {
    if evs != [] {
      RetiredStaysRetired(Step(s, evs[0]), id, evs[1..]);
    }
  }

  /**
    A timeout cleared by an unmount or a new `delay` never fires into the
    card: at any later point, firing its id changes nothing.
   */
  lemma ClearedTimerInert(s: State, e: Event, evs: seq<Event>)
    requires Inv(s) && s.pending.Some?
    requires !Armed(Step(s, e), s.pending.value.id)
    ensures var later := Run(Step(s, e), evs);
      Step(later, Fire(s.pending.value.id)) == later
  {
    RetiredStaysRetired(Step(s, e), s.pending.value.id, evs);
  }
}

=== FILE: timers.dfy ===
/**
  Vocabulary shared by the page's animators: the handles the host hands out
  for setTimeout and setInterval, the lifecycle of one component instance, and
  a single result of Math.random().

  Time is not modelled as milliseconds on an event loop. Each component owns a
  small table of armed timers; the environment decides which armed timer fires
  next, and that firing is one discrete event. Every timer a component arms
  gets the component's next unused id, so an id once cleared is never reused.

  Each component module restates three small notions over its own State,
  because each State names its timer fields differently: `Armed` (or
  `IsInterval`), "this id is the armed timer"; `Retired`, "this id was
  handed out and is no longer armed"; and `RetiredStaysRetired`, "a retired
  id stays retired through any later events", the fact behind
  `ClearedTimerInert`.
 */
module Timers {

  datatype Option<+T> = None | Some(value: T)

  /** The lifecycle of one component instance. A remount is a new instance. */
  datatype Phase = Unmounted | Mounted | Disposed

  /** A handle returned by setTimeout or setInterval, with the delay (ms) it was armed with. */
  datatype Timer = Timer(id: nat, ms: real)

  /** One result of Math.random(): a real in the half-open interval [0, 1). */
  type Draw = r: real | 0.0 <= r < 1.0

  function Min(a: nat, b: nat): nat {
    if a <= b then a else b
  }
}

=== FILE: typewriter.dfy ===
/**
  The TypeWriter component: reveals `text` one character per timeout.

  Its effect depends on `currentIndex`, `text` and `delay`. Whenever one of
  them changes the previous timeout is cleared and, while characters remain,
  a new one is armed. The callback appends the character its closure saw and
  bumps `currentIndex`, which re-runs the effect. When `text` changes while
  mounted, the revealed text and the index are kept as they are.
 */
module TypeWriter {
  import opened Timers

  /** The `delay` prop's default, in milliseconds. */
  const DefaultDelay: real := 50.0

  /** An armed timeout and the character its callback will append. */
  datatype Timeout = Timeout(timer: Timer, ch: char)

  datatype State = State(
    text: string,
    delay: real,
    displayText: string,
    currentIndex: nat,
    phase: Phase,
    pending: Option<Timeout>,
    nextId: nat)

  datatype Event =
    | Mount
    | Fire(id: nat)
    | PropsChange(text: string, delay: real)
    | Unmount

  function Init(text: string, delay: real): State {
    State(text, delay, "", 0, Unmounted, None, 0)
  }

  /** A fresh instance given no `delay` prop: it waits 50 ms per character. */
  function InitDefault(text: string): (s: State)
    ensures s.delay == DefaultDelay && s.text == text
    ensures Inv(s) && Prefix(s) && s.displayText == ""
  {
    Init(text, DefaultDelay)
  }

  predicate Armed(s: State, id: nat) {
    s.pending.Some? && s.pending.value.timer.id == id
  }

  /** True of an event that gives the component a different `text`. */
  predicate ChangesText(s: State, e: Event) {
    e.PropsChange? && e.text != s.text
  }

  /** Every `PropsChange` in `evs` passes `text` again. */
  ghost predicate KeepsText(text: string, evs: seq<Event>) {
    forall i :: 0 <= i < |evs| && evs[i].PropsChange? ==> evs[i].text == text
  }

  /** Facts every reachable state satisfies, whatever props it was given. */
  ghost predicate Inv(s: State) {
    && |s.displayText| == s.currentIndex
    && (s.phase == Unmounted ==> s.currentIndex == 0 && s.pending.None?)
    && (s.pending.Some? ==>
          && s.phase == Mounted
          && s.currentIndex < |s.text|
          && s.pending.value.ch == s.text[s.currentIndex]
          && s.pending.value.timer.ms == s.delay
          && s.pending.value.timer.id < s.nextId)
    && (s.phase == Mounted && s.currentIndex < |s.text| ==> s.pending.Some?)
  }

  /** The displayed text is the first `currentIndex` characters of `text`. */
  ghost predicate Prefix(s: State) {
    s.currentIndex <= |s.text| && s.displayText == s.text[..s.currentIndex]
  }

  /** The effect's cleanup (clear the pending timeout) followed by its body. */
  function Effect(s: State): State {
    if s.currentIndex < |s.text| then
      s.(pending := Some(Timeout(Timer(s.nextId, s.delay), s.text[s.currentIndex])),
         nextId := s.nextId + 1)
    else
      s.(pending := None)
  }

  function Step(s: State, e: Event): (r: State)
    ensures Inv(s) ==> Inv(r)
    ensures s.displayText <= r.displayText
    ensures s.currentIndex <= r.currentIndex
    ensures !ChangesText(s, e) ==> r.text == s.text
    ensures Inv(s) && Prefix(s) && !ChangesText(s, e) ==> Prefix(r)
    ensures Inv(s) && e.Fire? && Armed(s, e.id) ==>
              && r.displayText == s.displayText + [s.text[s.currentIndex]]
              && r.currentIndex == s.currentIndex + 1
    ensures !(e.Fire? && Armed(s, e.id)) ==>
              r.displayText == s.displayText && r.currentIndex == s.currentIndex
    ensures s.nextId <= r.nextId
    ensures r.pending.Some? ==> r.pending == s.pending || r.pending.value.timer.id == s.nextId
    ensures s.phase == Disposed ==> r == s
    ensures s.phase != Disposed && e.PropsChange? ==> r.text == e.text && r.delay == e.delay
    ensures s.phase == Mounted && e.Unmount? ==> r.phase == Disposed && r.pending.None?
    ensures e.Fire? || e.PropsChange? ==> r.phase == s.phase
    ensures e.Fire? && !(s.phase == Mounted && Armed(s, e.id)) ==> r == s
    ensures e.Mount? && s.phase != Unmounted ==> r == s
    ensures e.Unmount? && s.phase != Mounted ==> r == s
  {
    match e
    case Mount =>
      if s.phase == Unmounted then Effect(s.(phase := Mounted)) else s
    case Fire(id) =>
      if s.phase == Mounted && Armed(s, id) then
        var t := s.pending.value;
        assert Inv(s) && Prefix(s) ==> s.text[..s.currentIndex + 1] == s.displayText + [t.ch];
        Effect(s.(displayText := s.displayText + [t.ch], currentIndex := s.currentIndex + 1))
      else
        s
    case PropsChange(text, delay) =>
      if s.phase == Disposed || (text == s.text && delay == s.delay) then s
      else if s.phase == Unmounted then s.(text := text, delay := delay)
      else Effect(s.(text := text, delay := delay))
    case Unmount =>
      if s.phase == Mounted then s.(phase := Disposed, pending := None) else s
  }

  function Run(s: State, evs: seq<Event>): (r: State)
    ensures Inv(s) ==> Inv(r)
    ensures s.displayText <= r.displayText
    ensures s.currentIndex <= r.currentIndex
    ensures s.nextId <= r.nextId
    ensures s.phase == Disposed ==> r == s
    decreases |evs|
  {
    if evs == [] then s else Run(Step(s, evs[0]), evs[1..])
  }

  /** While `text` is not changed, the display is always a prefix of it. */
  lemma {:induction false} PrefixPreserved(s: State, evs: seq<Event>)
    requires Inv(s) && Prefix(s) && KeepsText(s.text, evs)
    ensures Run(s, evs).text == s.text
    ensures Prefix(Run(s, evs))
    decreases |evs|
  {
    if evs != [] {
      var s' := Step(s, evs[0]);
      assert KeepsText(s'.text, evs[1..]) by {
        forall i | 0 <= i < |evs[1..]| && evs[1..][i].PropsChange?
          ensures evs[1..][i].text == s'.text
        {
          assert evs[1..][i] == evs[i + 1];
        }
      }
      PrefixPreserved(s', evs[1..]);
    }
  }

  /** From mount on, with fixed props, the display is `text[..currentIndex]`. */
  lemma PrefixFromInit(text: string, delay: real, evs: seq<Event>)
    requires KeepsText(text, evs)
    ensures var r := Run(Init(text, delay), evs);
      r.currentIndex <= |text| && r.displayText == text[..r.currentIndex]
  {
    PrefixPreserved(Init(text, delay), evs);
  }

  /**
    Once every character is shown nothing is armed, and no later event that
    keeps `text` changes the display again.
   */
  lemma {:induction false} DoneIsTerminal(s: State, evs: seq<Event>)
    requires Inv(s) && s.currentIndex >= |s.text| && KeepsText(s.text, evs)
    ensures s.pending.None?
    ensures Run(s, evs).pending.None?
    ensures Run(s, evs).displayText == s.displayText
    ensures Run(s, evs).currentIndex == s.currentIndex
    decreases |evs|
  {
    if evs != [] {
      var s' := Step(s, evs[0]);
      assert KeepsText(s'.text, evs[1..]) by {
        forall i | 0 <= i < |evs[1..]| && evs[1..][i].PropsChange?
          ensures evs[1..][i].text == s'.text
        {
          assert evs[1..][i] == evs[i + 1];
        }
      }
      DoneIsTerminal(s', evs[1..]);
    }
  }

  /** The events that fire timers `from`, `from + 1`, ..., `from + k - 1` in turn. */
  function Fires(from: nat, k: nat): (evs: seq<Event>)
    ensures |evs| == k
    ensures forall i :: 0 <= i < k ==> evs[i] == Fire(from + i)
    decreases k
  {
    if k == 0 then [] else [Fire(from)] + Fires(from + 1, k - 1)
  }

  /** The state reached after mounting and letting `j` timeouts fire. */
  function Revealed(text: string, delay: real, j: nat): State
    requires j <= |text|
  {
    State(text, delay, text[..j], j, Mounted,
          if j < |text| then Some(Timeout(Timer(j, delay), text[j])) else None,
          if j < |text| then j + 1 else |text|)
  }

  /** One firing of the armed timeout moves the reveal one character on. */
  lemma RevealedFire(text: string, delay: real, j: nat, m: nat)
    requires j <= |text|
    requires j < |text| ==> m == j
    ensures Step(Revealed(text, delay, j), Fire(m)) == Revealed(text, delay, Min(j + 1, |text|))
  {
    if j < |text| {
      assert text[..j] + [text[j]] == text[..j + 1];
    }
  }

  lemma {:induction false} RevealedRun(text: string, delay: real, j: nat, m: nat, k: nat)
    requires j <= |text|
    requires j < |text| ==> m == j
    ensures Run(Revealed(text, delay, j), Fires(m, k)) == Revealed(text, delay, Min(j + k, |text|))
    decreases k
  {
    if k > 0 {
      var evs := Fires(m, k);
      assert evs[0] == Fire(m);
      assert evs[1..] == Fires(m + 1, k - 1);
      RevealedFire(text, delay, j, m);
      RevealedRun(text, delay, Min(j + 1, |text|), m + 1, k - 1);
    }
  }

  /**
    Mounting and firing the armed timeout `k` times shows exactly the first
    min(k, |text|) characters; extra firings find nothing armed.
   */
  lemma RevealAfterFires(text: string, delay: real, k: nat)
    ensures Run(Init(text, delay), [Mount] + Fires(0, k)).displayText == text[..Min(k, |text|)]
    ensures k >= |text| ==> Run(Init(text, delay), [Mount] + Fires(0, k)).pending.None?
  {
    var evs := [Mount] + Fires(0, k);
    assert evs[0] == Mount && evs[1..] == Fires(0, k);
    assert Step(Init(text, delay), Mount) == Revealed(text, delay, 0);
    RevealedRun(text, delay, 0, 0, k);
  }

  /** The two-character scenario: "", "A", "AB", and still "AB" two firings later. */
  lemma TypingAB()
    ensures Run(Init("AB", 40.0), [Mount]).displayText == ""
    ensures Run(Init("AB", 40.0), [Mount] + Fires(0, 1)).displayText == "A"
    ensures Run(Init("AB", 40.0), [Mount] + Fires(0, 2)).displayText == "AB"
    ensures Run(Init("AB", 40.0), [Mount] + Fires(0, 4)).displayText == "AB"
  {
    RevealAfterFires("AB", 40.0, 0);
    assert [Mount] + Fires(0, 0) == [Mount];
    RevealAfterFires("AB", 40.0, 1);
    RevealAfterFires("AB", 40.0, 2);
    RevealAfterFires("AB", 40.0, 4);
  }

  /**
    Changing `text` mid-reveal keeps what was already shown: "AB" reveals "A",
    the text becomes "XY", and the next firing appends "Y", giving "AY".
   */
  lemma StaleTextKept()
    ensures var r := Run(Init("AB", 40.0), [Mount, Fire(0), PropsChange("XY", 40.0), Fire(2)]);
      r.displayText == "AY" && !Prefix(r)
  {
  }

  /** A timer id that was handed out and is not the one armed. */
  ghost predicate Retired(s: State, id: nat) {
    id < s.nextId && !Armed(s, id)
  }

  lemma {:induction false} RetiredStaysRetired(s: State, id: nat, evs: seq<Event>)
    requires Retired(s, id)
    ensures Retired(Run(s, evs), id)
    decreases |evs|
  {
    if evs != [] {
      RetiredStaysRetired(Step(s, evs[0]), id, evs[1..]);
    }
  }

  /**
    A timeout cleared by an unmount or a props change never fires into the
    component: at any later point, firing its id changes nothing.
   */
  lemma ClearedTimerInert(s: State, e: Event, evs: seq<Event>)
    requires Inv(s) && s.pending.Some?
    requires !Armed(Step(s, e), s.pending.value.timer.id)
    ensures var later := Run(Step(s, e), evs);
      Step(later, Fire(s.pending.value.timer.id)) == later
  {
    RetiredStaysRetired(Step(s, e), s.pending.value.timer.id, evs);
  }
}
